=== FILE: README.md ===
# modParse download decisions in Dafny

modParse is a command-line tool that reads a Minecraft modpack manifest, asks the CurseForge
API where the required mod files live, and downloads them into `./mods` (and, with `--forge`,
the primary mod loader into `./forge`), asking before it overwrites a file. The tool is mostly
HTTP and file I/O; this project models the small, pure decision rules of `main.go` that sit
between the I/O calls, with every I/O result turned into a parameter:

- **Credential resolution** (`getApiKey`): module `Credentials`. The value of the `API_KEY`
  environment variable is a parameter.
- **Overwrite consent** (`askForOverwrite`): module `Consent`. It covers Go's
  `strings.TrimSpace`, with the exact `unicode.IsSpace` white-space set, plus lower-casing and
  the three accepted answers `y`, `yes` and Cyrillic `н`. Like `y` and `yes`, `н` is accepted
  only as the whole normalised answer. The line read from standard input is a parameter.
- **Downloading one file** (`fileExists`, `downloadFile`): module `Download`. The `os.Stat`
  results, the prompt answer and the outcomes of the GET, `MkdirAll`, `Create` and `Copy`
  calls are parameters. The model returns the `(bool, error)` pair, whether the user was
  asked, and what happened to the file on disk.
- **Primary mod-loader selection** (the `--forge` scan in `main`): module `Loader`. The scan
  has no early exit, so the last primary entry wins.
- **Required file ids** (the request loop in `main`): module `FileRequest`.
- **Tally and report** (the download loop and the closing report in `main`): module `Summary`.

Supporting modules:

- `Manifest` mirrors `ModLoader`, `File`, `Minecraft` and `Manifest` from
  `manifest/manifest.go`.
- `Response` mirrors the `fileName` and `downloadUrl` fields of `FileData`.
- `Wrappers` holds `Option`, which stands for Go's nilable `error`.
- `Selection` holds the shared "in-order selection" specification. `Positions(s, keep)` is
  the strictly increasing list of exactly those positions of `s` whose entries satisfy
  `keep`; `EnumerationIsUnique` shows that this list is unique. It states both the
  order-preserving filter of required ids and the order of the failure list.

## Model

| member | source | states |
|---|---|---|
| Credentials.GetApiKey | main.go:31-48 | A non-empty command-line key is returned unchanged with no error. Without one, `--env` returns the environment value, or fails with an empty key if that value is empty. Without `--env`, resolution fails. Success holds exactly when the returned key is non-empty. |
| Credentials.GetApiKeyPicksFirstSource | main.go:31-48 | Against the priority list [command line, environment if `--env`], resolution succeeds iff some source is non-empty, and then returns the first non-empty source. |
| Credentials.CommandLineWins | main.go:33-35 | With a command-line key, neither `--env` nor the environment value changes the result. |
| Credentials.EnvironmentIgnoredWithoutFlag | main.go:38-47 | Without `--env`, the environment value never affects the result. |
| Consent.IsSpace | main.go:61 | The white-space set of Go's `unicode.IsSpace`, which `strings.TrimSpace` strips: tab, line feed, vertical tab, form feed, carriage return, space, U+0085, U+00A0, U+1680, U+2000-U+200A, U+2028, U+2029, U+202F, U+205F and U+3000. |
| Consent.LowerChar | main.go:61 | Lower-casing leaves no upper-case letter, changes nothing that is not upper case, and never turns white space into non-space or the reverse. A character lower-cases to `y`, `e`, `s` or `н` exactly when it is that letter or its capital, so no other letter can spell an accepted answer. |
| Consent.ToLower | main.go:61 | `strings.ToLower`: the result has the input's length, and each character is the lower-case form `LowerChar` gives of the input character at the same position. |
| Consent.TrimLeftFunc | main.go:61 | The result is a suffix of the input. Everything removed is white space, and the result does not start with white space. |
| Consent.TrimRightFunc | main.go:61 | The result is a prefix of the input. Everything removed is white space, and the result does not end with white space. |
| Consent.TrimFunc | main.go:61 | The trimmed string has white space at neither end and is no longer than the input. |
| Consent.TrimSpace | main.go:61 | `strings.TrimSpace` is `TrimFunc` with `IsSpace`. `TrimFuncSplits` and `TrimFuncOfPadded` pin it down: the result is the input with its leading and trailing white space removed. |
| Consent.Normalize | main.go:61 | The normalisation of `askForOverwrite`: lower-case first, then trim. `NormalizePadded` and `LowerThenTrimIsTrimThenLower` state what it yields. |
| Consent.TrimFuncSplits | main.go:61 | Every string is leading white space + its trimmed form + trailing white space. |
| Consent.TrimFuncOfPadded | main.go:61 | A string with no white space at its ends, padded with white space on both sides, trims back to exactly itself. Together with `TrimFuncSplits` this pins `TrimSpace` down uniquely. |
| Consent.TrimFuncIgnoresPadding | main.go:61 | Adding white space around any string does not change its trimmed form. |
| Consent.NormalizePadded | main.go:61 | Normalising a white-space-padded word with no white space at its ends gives exactly the lower-cased word. |
| Consent.LowerThenTrimIsTrimThenLower | main.go:61 | Lower-casing then trimming, the order in the source, gives the same result as trimming then lower-casing. |
| Consent.Accepts | main.go:60-67 | The consent decision: the lower-cased, trimmed answer is `y`, `yes` or `н`. Its characterisation in both directions is the pair `AcceptsPaddedAffirmative` and `AcceptedIsPaddedAffirmative` below. |
| Consent.AcceptsPaddedAffirmative | main.go:60-67 | Any letter-case variant of `y`, `yes` or `н`, surrounded by any white space, is consent. |
| Consent.AcceptedIsPaddedAffirmative | main.go:60-67 | Every accepted answer is such a padded affirmative; this is the converse of the row above. |
| Consent.AcceptsIgnoresPadding | main.go:60-67 | Surrounding white space never changes whether an answer is consent. |
| Consent.AcceptsIgnoresCase | main.go:60-67 | Lower-casing an answer never changes whether it is consent. |
| Consent.RefusesBlank | main.go:64-67 | An empty or all-white-space answer is a refusal. |
| Consent.RefusesOtherWord | main.go:64-67 | A word whose lower-case form is not `y`, `yes` or `н` is a refusal, whatever white space surrounds it. |
| Consent.RefusesNo | main.go:64-67 | `n` and `N`, with any white space around them, are refusals. |
| Consent.AcceptsUpperCaseYes | main.go:60-67 | `YES` and `Y`, with any white space around them (such as the newline the read keeps), are consent. |
| Consent.AcceptsCyrillicCapital | main.go:60-67 | Cyrillic capital `Н`, with any white space around it, is consent. |
| Download.FileExists | main.go:51-53 | A path counts as missing exactly when `os.Stat` reports "not exist", so any other stat failure counts as existing. |
| Download.DownloadGate | main.go:76-85 | The user is asked exactly when the file exists and `--overrode` is off. The fetch is skipped exactly when the user was asked and did not consent. |
| Download.DownloadFile | main.go:71-117 | Success holds exactly when the gate lets the fetch through and GET, directory creation (only when the directory is missing), `Create` and `Copy` all succeed. Success has no error and leaves the new body in the file. `(false, nil)` occurs exactly for a declined prompt, and the file is then untouched. The file is touched exactly when the fetch passes the gate and GET, directory creation and `Create` all succeed. A failed GET, `MkdirAll` or `Create` leaves it untouched. A failed `Copy` leaves it truncated, because `Create` has already emptied it. |
| Download.FreshPathNeverPrompts | main.go:76-88 | For a missing path the result does not depend on `--overrode` or on the answer, and no prompt happens. |
| Download.OverrodeReplacesWithoutPrompt | main.go:77-116 | Under `--overrode` there is never a prompt. If every step succeeds, the download succeeds and the file holds the new body. |
| Download.DeclineLeavesFileUntouched | main.go:78-83 | An existing file plus a refused prompt gives `(false, nil)` and leaves the file untouched. The result does not depend on any later step's outcome. |
| Download.AnswerIgnoredUnlessPrompted | main.go:76-85 | When no prompt happens, the answer has no influence on the result. |
| Download.FirstErrorIsReported | main.go:88-113 | Past the gate, the error returned is that of the first failing step, in the order GET, `MkdirAll`, `Create`, `Copy`. |
| Loader.LastPrimary | main.go:205-210 | Returns the position of a primary entry after which no entry is primary, or -1 exactly when no entry is primary. |
| Loader.PrimaryVersion | main.go:205-210 | The version the scan settles on is `""` when no entry is primary, and otherwise the id of a primary entry that no later entry overrides. |
| Loader.SelectPrimaryVersion | main.go:205-210 | The scan returns the id of the last primary entry. It returns `""` when no entry is primary, and any non-empty result is the id of some primary entry. |
| Loader.AppendNonPrimaryKeepsVersion | main.go:206-210 | Appending a non-primary entry does not change the selected version. |
| Loader.AppendPrimaryWins | main.go:206-210 | Appending a primary entry makes its id the selected version. |
| Loader.LaterPrimaryWins | main.go:206-210 | If a later entry is also primary, an earlier primary entry is never the one selected. |
| FileRequest.RequiredFileIds | main.go:219-226 | There is exactly one id per required entry, and the k-th id is the `fileID` of the k-th required entry in manifest order. |
| FileRequest.RequiredFileIdsAppend | main.go:222-226 | The ids of a concatenated manifest are the ids of each part, back to back. |
| FileRequest.RequestedIdsAreRequired | main.go:222-226 | An id is requested iff some required entry carries it. |
| FileRequest.AllRequiredRequestsAll | main.go:222-226 | When every entry is required, the request is every `fileID` in manifest order. |
| Summary.AttemptOf | main.go:269 | Only pairs the file with the `(res, err)` that `downloadFile` returned for it. An attempt is a failure exactly when `res` is false. What the pairing means for the tally is stated by `DownloadIsTallied` and `DeclinedIsTallied`. |
| Summary.Record | main.go:273-278 | One attempt moves exactly one counter: `success` when it succeeded, `failed` when it failed, and the other counter stays put. The failure list is unchanged after a success. After a failure it grows by exactly one entry at its end, the failed file's name. |
| Summary.DownloadIsTallied | main.go:269-278 | A `downloadFile` call is counted as a success exactly when the gate lets the fetch through and every step succeeds. Otherwise it is counted as a failure and its name is appended to the failure list. |
| Summary.DeclinedIsTallied | main.go:269-278 | A declined overwrite of an existing file returns no error, yet it is counted and listed as a failure. |
| Summary.TallyOf | main.go:262-279 | Every attempt is counted exactly once (`success + failed` equals the number of attempts), and the failure list has one entry per failure. |
| Summary.TallyCountsOutcomes | main.go:262-279 | `success` is the number of successful attempts and `failed` the number of failed ones. `listFailed` names the failed attempts in download order, so no successful attempt is ever listed. |
| Summary.TallyDownloads | main.go:262-279 | The loop keeps `success + failed` equal to the number of attempts processed and the length of `listFailed` equal to `failed`. It ends with the tally of all attempts. |
| Summary.TallyAppend | main.go:267-279 | Tallying two stretches in sequence adds the counts and concatenates the failure lists. |
| Summary.TallyIgnoresErrors | main.go:269-278 | The tally depends only on the file and `res`. A declined overwrite `(false, nil)` counts the same as a failure with an error. |
| Summary.Report | main.go:281-288 | The success count comes first, then the failure count. The heading and the failed names, in order, follow exactly when `failed > 0`. |
| Summary.ReportOfRun | main.go:262-288 | For a whole run, the failure list is shown iff some attempt failed, and it names exactly the failed attempts in download order. |
| Summary.AllSucceedScenario | main.go:262-288 | When both of two downloads succeed, the report is exactly `DownloadedCount(2)`, `FailedCount(0)`, with no list. |
| Summary.OneFailsScenario | main.go:262-288 | When one of two downloads fails on the network, the report is exactly `DownloadedCount(1)`, `FailedCount(1)`, `FailureListHeading` and `FailedFileName` of the failed file's name. |

## Left out

- HTTP and JSON (`downloadForgeByVersion` at main.go:120-149 and the batch POST at main.go:228-260) are network I/O and standard-library decoding. The batch response's file list is the input of the tally. main.go:130-134 dereferences the response even after a failed request; that is a crash path, not behaviour to model.
- `manifest.LoadManifest` is file reading plus `encoding/json`; the manifest is a value of the `Manifest` datatype.
- `filepath.Join`, `os.Stat`, `os.MkdirAll`, `os.Create`, `io.Copy` and `http.Get` are represented by their outcomes, which are `Download.FetchSteps` and `Download.StatResult`.
- Flag parsing, help and usage text, the order of the phases in `main`, and its early returns (failed key resolution, `--no-download`) are not modelled. The prompt text and other printed messages are also left out; the closing report is a sequence of `Summary.Line` values, not formatted text.
- `safeClose` and deferred closing only manage resources and have no result to state.
- The response structs in response/responseFiles.go and response/responseForge.go are plain data. Only `fileName` and `downloadUrl` are mirrored.
- Strings are sequences of Unicode scalar values. The bytes `ReadString` returns, including invalid UTF-8, are not modelled, and neither is the read error that `askForOverwrite` discards.
- Consent.LowerChar: lower-cases only ASCII `A`-`Z` and the Cyrillic capitals U+0400-U+042F, while Go's `strings.ToLower` covers all of Unicode. Answers made of other scripts may therefore normalise differently. The accepted answers and the white-space set are exact.
- Download.DownloadFile: after a failed `io.Copy` the file is only marked `Truncated`; the bytes written before the failure are not tracked.
- Summary.TallyDownloads: the counters are unbounded naturals. Go's `int` (32 or 64 bits) cannot overflow for any realistic number of files.

=== FILE: consent.dfy ===
/** Classification of the answer to the overwrite prompt (`askForOverwrite` in main.go): the
    line read from standard input is lower-cased, then stripped of surrounding white space,
    and is consent exactly when what remains is "y", "yes" or the Cyrillic "н". */
module Consent {

  /** White space as Go's `unicode.IsSpace` defines it, which is what `strings.TrimSpace`
      strips: the ASCII tab, line feed, vertical tab, form feed, carriage return and space,
      U+0085, U+00A0, and the Unicode White_Space characters above Latin-1. */
  predicate IsSpace(c: char) {
    var n := c as int;
    || (9 <= n <= 13) || n == 32 || n == 0x85 || n == 0xA0
    || n == 0x1680 || (0x2000 <= n <= 0x200A) || n == 0x2028 || n == 0x2029
    || n == 0x202F || n == 0x205F || n == 0x3000
  }

  /** Every character of `s` satisfies `f`. */
  predicate All(s: string, f: char -> bool) {
    forall i :: 0 <= i < |s| ==> f(s[i])
  }

  predicate AllSpace(s: string) {
    All(s, IsSpace)
  }

  /** `s` neither starts nor ends with a character satisfying `f`. */
  predicate IsTrimmedBy(s: string, f: char -> bool) {
    |s| == 0 || (!f(s[0]) && !f(s[|s| - 1]))
  }

  /** Upper-case letters that have a lower-case partner: ASCII A-Z and the Cyrillic capitals
      U+0400..U+042F. */
  predicate IsUpper(c: char) {
    var n := c as int;
    ('A' as int <= n <= 'Z' as int) || (0x400 <= n <= 0x42F)
  }

  /** One character of `strings.ToLower`, on the letters `IsUpper` covers. */
  function LowerChar(c: char): (l: char)
    ensures !IsUpper(l)
    ensures !IsUpper(c) ==> l == c
    ensures IsSpace(l) <==> IsSpace(c)
    // the letters of the accepted answers come only from themselves or their capitals
    ensures l == 'y' <==> c == 'y' || c == 'Y'
    ensures l == 'e' <==> c == 'e' || c == 'E'
    ensures l == 's' <==> c == 's' || c == 'S'
    ensures l == '\U{043D}' <==> c == '\U{043D}' || c == '\U{041D}'
  {
    var n := c as int;
    if 'A' as int <= n <= 'Z' as int then (n + 32) as char
    else if 0x410 <= n <= 0x42F then (n + 32) as char
    else if 0x400 <= n <= 0x40F then (n + 80) as char
    else c
  }

  function ToLower(s: string): (r: string)
    ensures |r| == |s|
    ensures forall i :: 0 <= i < |s| ==> r[i] == LowerChar(s[i])
  {
    seq(|s|, i requires 0 <= i < |s| => LowerChar(s[i]))
  }

  /** `s` without its leading characters that satisfy `f` (Go's `strings.TrimLeftFunc`). */
  function TrimLeftFunc(s: string, f: char -> bool): (r: string)
    ensures |r| <= |s| && r == s[|s| - |r|..]
    ensures All(s[..|s| - |r|], f)
    ensures |r| == 0 || !f(r[0])
  {
    if |s| > 0 && f(s[0]) then TrimLeftFunc(s[1..], f) else s
  }

  /** `s` without its trailing characters that satisfy `f` (Go's `strings.TrimRightFunc`). */
  function TrimRightFunc(s: string, f: char -> bool): (r: string)
    ensures |r| <= |s| && r == s[..|r|]
    ensures All(s[|r|..], f)
    ensures |r| == 0 || !f(r[|r| - 1])
  {
    if |s| > 0 && f(s[|s| - 1]) then
      var r := TrimRightFunc(s[..|s| - 1], f);
      assert s[|r|..] == s[..|s| - 1][|r|..] + [s[|s| - 1]];
      r
    else s
  }

  /** Go's `strings.TrimFunc`: both ends stripped. */
  function TrimFunc(s: string, f: char -> bool): (r: string)
    ensures IsTrimmedBy(r, f)
    ensures |r| <= |s|
  {
    TrimRightFunc(TrimLeftFunc(s, f), f)
  }

  /** Go's `strings.TrimSpace`, which is `TrimFunc` with `unicode.IsSpace`. */
  function TrimSpace(s: string): string {
    TrimFunc(s, IsSpace)
  }

  /** The normalised answers that count as consent: "y", "yes" and the Cyrillic "н" (U+043D,
      the key that carries "y" on a Ukrainian keyboard layout). */
  const Affirmatives: set<string> := {"y", "yes", "\U{043D}"}

  /** The normalisation `askForOverwrite` applies: lower-case first, then trim. */
  function Normalize(answer: string): string {
    TrimSpace(ToLower(answer))
  }

  /** Whether the answer read at the overwrite prompt is consent. */
  predicate Accepts(answer: string) {
    Normalize(answer) in Affirmatives
  }

  // ---------------------------------------------------------------------------------------
  // Trimming: what it removes and what it keeps

  lemma TrimLeftSplits(s: string, f: char -> bool) returns (lead: string)
    ensures s == lead + TrimLeftFunc(s, f) && All(lead, f)
  {
    var l := TrimLeftFunc(s, f);
    lead := s[..|s| - |l|];
    assert s == s[..|s| - |l|] + s[|s| - |l|..];
  }

  lemma TrimRightSplits(s: string, f: char -> bool) returns (trail: string)
    ensures s == TrimRightFunc(s, f) + trail && All(trail, f)
  {
    var r := TrimRightFunc(s, f);
    trail := s[|r|..];
    assert s == s[..|r|] + s[|r|..];
  }

  lemma Associate(a: string, b: string, c: string)
    ensures a + (b + c) == a + b + c
  {
  }

  /** Trimming splits its input into a leading run of `f`-characters, a trimmed core, and a
      trailing run of `f`-characters. */
  lemma TrimFuncSplits(s: string, f: char -> bool) returns (lead: string, trail: string)
    ensures s == lead + TrimFunc(s, f) + trail
    ensures All(lead, f) && All(trail, f)
  {
    lead := TrimLeftSplits(s, f);
    var l := TrimLeftFunc(s, f);
    trail := TrimRightSplits(l, f);
    Associate(lead, TrimRightFunc(l, f), trail);
  }

  lemma AllConcat(a: string, b: string, f: char -> bool)
    requires All(a, f) && All(b, f)
    ensures All(a + b, f)
  {
    forall i | 0 <= i < |a + b| ensures f((a + b)[i]) {
      if i >= |a| { assert (a + b)[i] == b[i - |a|]; }
    }
  }

  lemma {:induction false} TrimLeftSkips(w: string, t: string, f: char -> bool)
    requires All(w, f) && (|t| == 0 || !f(t[0]))
    ensures TrimLeftFunc(w + t, f) == t
    decreases |w|
  {
    if |w| == 0 {
      assert w + t == t;
    } else {
      assert (w + t)[0] == w[0];
      assert (w + t)[1..] == w[1..] + t;
      TrimLeftSkips(w[1..], t, f);
    }
  }

  lemma {:induction false} TrimRightSkips(t: string, w: string, f: char -> bool)
    requires All(w, f) && (|t| == 0 || !f(t[|t| - 1]))
    ensures TrimRightFunc(t + w, f) == t
    decreases |w|
  {
    if |w| == 0 {
      assert t + w == t;
    } else {
      assert (t + w)[|t + w| - 1] == w[|w| - 1];
      assert (t + w)[..|t + w| - 1] == t + w[..|w| - 1];
      TrimRightSkips(t, w[..|w| - 1], f);
    }
  }

  /** A trimmed core padded on both sides trims back to exactly that core: together with
      `TrimFuncSplits` this characterises `TrimFunc` completely. */
  lemma TrimFuncOfPadded(lead: string, core: string, trail: string, f: char -> bool)
    requires All(lead, f) && All(trail, f) && IsTrimmedBy(core, f)
    ensures TrimFunc(lead + core + trail, f) == core
  {
    if |core| == 0 {
      AllConcat(lead, trail, f);
      assert lead + core + trail == (lead + trail) + "";
      TrimLeftSkips(lead + trail, "", f);
    } else {
      assert lead + core + trail == lead + (core + trail);
      TrimLeftSkips(lead, core + trail, f);
      TrimRightSkips(core, trail, f);
    }
  }

  lemma Regroup(a: string, b: string, c: string, d: string, e: string)
    ensures a + (b + c + d) + e == (a + b) + c + (d + e)
  {
  }

  /** Padding around any string does not change what trimming returns. */
  lemma TrimFuncIgnoresPadding(lead: string, s: string, trail: string, f: char -> bool)
    requires All(lead, f) && All(trail, f)
    ensures TrimFunc(lead + s + trail, f) == TrimFunc(s, f)
  {
    var l, t := TrimFuncSplits(s, f);
    var core := TrimFunc(s, f);
    AllConcat(lead, l, f);
    AllConcat(t, trail, f);
    Regroup(lead, l, core, t, trail);
    TrimFuncOfPadded(lead + l, core, t + trail, f);
  }

  // ---------------------------------------------------------------------------------------
  // Lower-casing

  lemma ToLowerConcat(a: string, b: string)
    ensures ToLower(a + b) == ToLower(a) + ToLower(b)
  {
  }

  lemma ToLowerKeepsSpace(w: string)
    requires AllSpace(w)
    ensures ToLower(w) == w
  {
  }

  lemma ToLowerIdempotent(s: string)
    ensures ToLower(ToLower(s)) == ToLower(s)
  {
  }

  /** Lower-casing a padded word lower-cases the word and keeps the padding, and a word with
      no white space at its ends keeps that property. */
  lemma ToLowerOfPadded(lead: string, word: string, trail: string)
    requires AllSpace(lead) && AllSpace(trail)
    ensures ToLower(lead + word + trail) == lead + ToLower(word) + trail
    ensures IsTrimmedBy(word, IsSpace) ==> IsTrimmedBy(ToLower(word), IsSpace)
  {
    ToLowerConcat(lead + word, trail);
    ToLowerConcat(lead, word);
    ToLowerKeepsSpace(lead);
    ToLowerKeepsSpace(trail);
  }

  /** Normalising a padded word gives the lower-cased word. */
  lemma NormalizePadded(lead: string, word: string, trail: string)
    requires AllSpace(lead) && AllSpace(trail) && IsTrimmedBy(word, IsSpace)
    ensures Normalize(lead + word + trail) == ToLower(word)
  {
    ToLowerOfPadded(lead, word, trail);
    TrimFuncOfPadded(lead, ToLower(word), trail, IsSpace);
  }

  /** Lower-casing does not move the white space, so the order in which `askForOverwrite`
      lower-cases and trims does not matter. */
  lemma LowerThenTrimIsTrimThenLower(s: string)
    ensures TrimSpace(ToLower(s)) == ToLower(TrimSpace(s))
  {
    var lead, trail := TrimFuncSplits(s, IsSpace);
    NormalizePadded(lead, TrimSpace(s), trail);
  }

  // ---------------------------------------------------------------------------------------
  // Consent

  /** Consent, stated without reference to the normalisation pipeline: the answer is accepted
      if it is an affirmative in any letter case, surrounded by any white space ... */
  lemma AcceptsPaddedAffirmative(lead: string, word: string, trail: string)
    requires AllSpace(lead) && AllSpace(trail) && ToLower(word) in Affirmatives
    ensures Accepts(lead + word + trail)
  {
    assert IsTrimmedBy(word, IsSpace) by {
      var w := ToLower(word);
      assert w == "y" || w == "yes" || w == "\U{043D}";
      assert |word| > 0 && !IsSpace(w[0]) && !IsSpace(w[|w| - 1]);
      assert w[0] == LowerChar(word[0]) && w[|w| - 1] == LowerChar(word[|word| - 1]);
    }
    NormalizePadded(lead, word, trail);
  }

  /** ... and only such answers are accepted. */
  lemma AcceptedIsPaddedAffirmative(answer: string) returns (lead: string, word: string, trail: string)
    requires Accepts(answer)
    ensures answer == lead + word + trail
    ensures AllSpace(lead) && AllSpace(trail)
    ensures ToLower(word) in Affirmatives
  {
    lead, trail := TrimFuncSplits(answer, IsSpace);
    word := TrimSpace(answer);
    LowerThenTrimIsTrimThenLower(answer);
  }

  /** White space around the answer never changes the decision. */
  lemma AcceptsIgnoresPadding(lead: string, answer: string, trail: string)
    requires AllSpace(lead) && AllSpace(trail)
    ensures Accepts(lead + answer + trail) <==> Accepts(answer)
  {
    ToLowerOfPadded(lead, answer, trail);
    TrimFuncIgnoresPadding(lead, ToLower(answer), trail, IsSpace);
  }

  /** Letter case never changes the decision. */
  lemma AcceptsIgnoresCase(answer: string)
    ensures Accepts(ToLower(answer)) <==> Accepts(answer)
  {
    ToLowerIdempotent(answer);
  }

  /** A blank line, the empty answer included, is a refusal. */
  lemma RefusesBlank(answer: string)
    requires AllSpace(answer)
    ensures !Accepts(answer)
  {
    NormalizePadded(answer, "", "");
    assert answer + "" + "" == answer;
  }

  /** A word other than an affirmative, in any letter case and with any white space around
      it, is a refusal. */
  lemma RefusesOtherWord(lead: string, word: string, trail: string)
    requires AllSpace(lead) && AllSpace(trail) && IsTrimmedBy(word, IsSpace)
    requires ToLower(word) !in Affirmatives
    ensures !Accepts(lead + word + trail)
  {
    NormalizePadded(lead, word, trail);
  }

  /** "n" and "N" are refusals, with any white space around them. */
  lemma RefusesNo(lead: string, trail: string)
    requires AllSpace(lead) && AllSpace(trail)
    ensures !Accepts(lead + "n" + trail) && !Accepts(lead + "N" + trail)
  {
    assert ToLower("n") == "n" && ToLower("N") == "n";
    RefusesOtherWord(lead, "n", trail);
    RefusesOtherWord(lead, "N", trail);
  }

  /** Upper-case "YES" and "Y" are consent, with any white space around them. */
  lemma AcceptsUpperCaseYes(lead: string, trail: string)
    requires AllSpace(lead) && AllSpace(trail)
    ensures Accepts(lead + "YES" + trail) && Accepts(lead + "Y" + trail)
  {
    assert ToLower("YES") == "yes" by {
      var l := ToLower("YES");
      assert l[0] == 'y' && l[1] == 'e' && l[2] == 's';
    }
    assert ToLower("Y") == "y";
    AcceptsPaddedAffirmative(lead, "YES", trail);
    AcceptsPaddedAffirmative(lead, "Y", trail);
  }

  /** The Cyrillic capital "Н" (on the "Y" key of a Ukrainian layout) is consent too, with any
      white space around it. */
  lemma AcceptsCyrillicCapital(lead: string, trail: string)
    requires AllSpace(lead) && AllSpace(trail)
    ensures Accepts(lead + "\U{041D}" + trail)
  {
    assert ToLower("\U{041D}") == "\U{043D}";
    AcceptsPaddedAffirmative(lead, "\U{041D}", trail);
  }
}

=== FILE: credentials.dfy ===
/** Credential resolution (`getApiKey` in main.go): the key given on the command line wins,
    otherwise the `API_KEY` environment variable is used when `--env` is set, otherwise
    resolution fails. */
module Credentials {

  import opened Wrappers

  /** The two failures `getApiKey` reports. */
  datatype KeyError =
    | EnvKeyUnset   // `--env` given but `API_KEY` is unset or empty
    | NoKeySource   // neither `--api-key` nor `--env` given

  /** Go's `(string, error)` pair; on failure the key is the empty string. */
  datatype KeyResult = KeyResult(key: string, err: Option<KeyError>)

  /** The sources of a key in priority order: the command line, then, when `--env` is set,
      the environment. */
  function Sources(cliApiKey: string, useEnv: bool, envApiKey: string): seq<string> {
    [cliApiKey] + (if useEnv then [envApiKey] else [])
  }

  /** Resolves the API key. `envApiKey` is what `os.Getenv("API_KEY")` returns, which is
      `""` both for an unset and for an empty variable. */
  function GetApiKey(cliApiKey: string, useEnv: bool, envApiKey: string): (r: KeyResult)
    // success exactly when a key was found, and then the key is not empty
    ensures r.err.None? <==> r.key != ""
    // a failure always carries the empty key
    ensures r.err.Some? ==> r.key == ""
    // the command line wins outright
    ensures cliApiKey != "" ==> r == KeyResult(cliApiKey, None)
    // without a command-line key the environment decides, and only when asked to
    ensures cliApiKey == "" && useEnv ==>
      r == (if envApiKey == "" then KeyResult("", Some(EnvKeyUnset)) else KeyResult(envApiKey, None))
    ensures cliApiKey == "" && !useEnv ==> r == KeyResult("", Some(NoKeySource))
  {
    if cliApiKey != "" then KeyResult(cliApiKey, None)
    else if useEnv then
      if envApiKey == "" then KeyResult("", Some(EnvKeyUnset)) else KeyResult(envApiKey, None)
    else KeyResult("", Some(NoKeySource))
  }

  /** Resolution picks the first non-empty source in priority order, and fails exactly when
      every source is empty. */
  lemma {:induction false} GetApiKeyPicksFirstSource(cliApiKey: string, useEnv: bool, envApiKey: string)
    ensures var r := GetApiKey(cliApiKey, useEnv, envApiKey);
            var src := Sources(cliApiKey, useEnv, envApiKey);
            && (r.err.None? <==> exists i :: 0 <= i < |src| && src[i] != "")
            && (r.err.None? ==> exists i :: 0 <= i < |src| && src[i] == r.key && forall j :: 0 <= j < i ==> src[j] == "")
  {
    var r := GetApiKey(cliApiKey, useEnv, envApiKey);
    var src := Sources(cliApiKey, useEnv, envApiKey);
    if cliApiKey != "" {
      assert src[0] == r.key;
    } else if useEnv && envApiKey != "" {
      assert src[1] == r.key;
    } else {
      assert forall i :: 0 <= i < |src| ==> src[i] == "";
    }
  }

  /** With a command-line key, neither `--env` nor the environment changes the outcome. */
  lemma CommandLineWins(cliApiKey: string, useEnv1: bool, env1: string, useEnv2: bool, env2: string)
    requires cliApiKey != ""
    ensures GetApiKey(cliApiKey, useEnv1, env1) == GetApiKey(cliApiKey, useEnv2, env2)
    ensures GetApiKey(cliApiKey, useEnv1, env1).key == cliApiKey
  {
  }

  /** Without `--env` the environment is never consulted. */
  lemma EnvironmentIgnoredWithoutFlag(cliApiKey: string, env1: string, env2: string)
    ensures GetApiKey(cliApiKey, false, env1) == GetApiKey(cliApiKey, false, env2)
  {
  }
}

=== FILE: download.dfy ===
/** Downloading one file (`downloadFile` and `fileExists` in main.go). Everything the
    operating system, the network and the user answer is an input here: the model decides,
    from those answers, whether the user is asked, what `downloadFile` returns, and what
    happens to the file on disk. */
module Download {

  import opened Wrappers
  import Consent

  type Error = string

  /** What `os.Stat` reports about a path. */
  datatype StatResult =
    | Found                // no error: the path exists
    | NotExist             // an error for which `os.IsNotExist` holds
    | StatFailed(e: Error) // any other error, e.g. permission denied on a parent directory

  /** `fileExists`: the path counts as existing unless `os.Stat` positively reports that it
      does not exist, so a failed `os.Stat` errs on the side of "exists". */
  predicate FileExists(stat: StatResult)
    ensures !FileExists(stat) ==> stat == NotExist
    ensures stat.NotExist? ==> !FileExists(stat)
  {
    !stat.NotExist?
  }

  /** The pre-fetch decision of `downloadFile`. */
  datatype Gate = Gate(prompted: bool, proceed: bool)

  /** A fresh path is fetched without a question; an existing one is overwritten silently
      under `--overrode` and otherwise only when the user consents. */
  function DownloadGate(present: bool, overrode: bool, answer: string): (g: Gate)
    ensures g.prompted <==> present && !overrode
    ensures !g.proceed <==> g.prompted && !Consent.Accepts(answer)
  {
    if present && !overrode then Gate(true, Consent.Accepts(answer)) else Gate(false, true)
  }

  /** The outcomes of the steps `downloadFile` performs after the gate, in order: the HTTP GET
      (with the response body on success), `os.Stat` of the target directory, `os.MkdirAll`,
      `os.Create` and `io.Copy`. */
  datatype FetchSteps = FetchSteps(
    get: Option<Error>,
    body: seq<bv8>,
    dirStat: StatResult,
    mkdir: Option<Error>,
    create: Option<Error>,
    copy: Option<Error>)

  /** What happens to the file at the target path. */
  datatype FileEffect =
    | Untouched              // never opened for writing
    | Truncated              // created or truncated, then the copy failed part-way
    | Replaced(content: seq<bv8>)

  /** `downloadFile`'s `(bool, error)` result together with whether the user was asked and
      the effect on disk. */
  datatype Download = Download(res: bool, err: Option<Error>, prompted: bool, effect: FileEffect)

  /** Whether the fetch steps all succeed; the directory is created only when its `os.Stat`
      reports that it does not exist. */
  predicate StepsSucceed(f: FetchSteps) {
    f.get.None? && (FileExists(f.dirStat) || f.mkdir.None?) && f.create.None? && f.copy.None?
  }

  /** `downloadFile(url, name, dir, overrode)`, with `fileStat` the `os.Stat` result of the
      target path, `answer` the line read at the prompt and `f` the outcomes of the later
      steps. */
  function DownloadFile(fileStat: StatResult, overrode: bool, answer: string, f: FetchSteps): (d: Download)
    // the prompt happens exactly for an existing file without --overrode
    ensures d.prompted <==> FileExists(fileStat) && !overrode
    // success is exactly: allowed past the gate, and every step succeeded
    ensures d.res <==> !(d.prompted && !Consent.Accepts(answer)) && StepsSucceed(f)
    // success carries no error and leaves the new body in the file
    ensures d.res ==> d.err.None? && d.effect == Replaced(f.body)
    // (false, nil) is returned exactly when the user declined, and then nothing is touched
    ensures (!d.res && d.err.None?) <==> d.prompted && !Consent.Accepts(answer)
    ensures !d.res && d.err.None? ==> d.effect == Untouched
    // the file is touched exactly when the fetch gets past the gate, GET, the directory step
    // and `os.Create`; from then on its old content is gone even if `io.Copy` fails
    ensures d.effect != Untouched <==>
              !(d.prompted && !Consent.Accepts(answer)) && f.get.None? &&
              (FileExists(f.dirStat) || f.mkdir.None?) && f.create.None?
    ensures d.effect != Untouched && f.copy.Some? ==> d.effect == Truncated
  {
    var gate := DownloadGate(FileExists(fileStat), overrode, answer);
    if !gate.proceed then Download(false, None, gate.prompted, Untouched)
    else if f.get.Some? then Download(false, f.get, gate.prompted, Untouched)
    else if !FileExists(f.dirStat) && f.mkdir.Some? then Download(false, f.mkdir, gate.prompted, Untouched)
    else if f.create.Some? then Download(false, f.create, gate.prompted, Untouched)
    else if f.copy.Some? then Download(false, f.copy, gate.prompted, Truncated)
    else Download(true, None, gate.prompted, Replaced(f.body))
  }

  /** A path that does not exist is fetched without a question, whatever `--overrode` says
      and whatever the user would have answered. */
  lemma FreshPathNeverPrompts(overrode1: bool, answer1: string, overrode2: bool, answer2: string, f: FetchSteps)
    ensures DownloadFile(NotExist, overrode1, answer1, f) == DownloadFile(NotExist, overrode2, answer2, f)
    ensures !DownloadFile(NotExist, overrode1, answer1, f).prompted
  {
  }

  /** Under `--overrode` the user is never asked, and a successful fetch replaces the
      existing file with the new body. */
  lemma OverrodeReplacesWithoutPrompt(fileStat: StatResult, answer: string, f: FetchSteps)
    ensures var d := DownloadFile(fileStat, true, answer, f);
            && !d.prompted
            && (StepsSucceed(f) ==> d.res && d.effect == Replaced(f.body))
  {
  }

  /** A refusal at the prompt is `(false, nil)`, leaves the existing file as it was, and does
      not depend on anything the network or the file system would have done. */
  lemma DeclineLeavesFileUntouched(fileStat: StatResult, answer: string, f1: FetchSteps, f2: FetchSteps)
    requires FileExists(fileStat) && !Consent.Accepts(answer)
    ensures var d := DownloadFile(fileStat, false, answer, f1);
            d == Download(false, None, true, Untouched) && d == DownloadFile(fileStat, false, answer, f2)
  {
  }

  /** The answer only matters when the user is actually asked. */
  lemma AnswerIgnoredUnlessPrompted(fileStat: StatResult, overrode: bool, answer1: string, answer2: string, f: FetchSteps)
    requires !DownloadFile(fileStat, overrode, answer1, f).prompted
    ensures DownloadFile(fileStat, overrode, answer1, f) == DownloadFile(fileStat, overrode, answer2, f)
  {
  }

  /** The error reported is the first failing step's, in the order the steps run. */
  lemma FirstErrorIsReported(fileStat: StatResult, overrode: bool, answer: string, f: FetchSteps)
    requires DownloadGate(FileExists(fileStat), overrode, answer).proceed
    ensures var d := DownloadFile(fileStat, overrode, answer, f);
            && (f.get.Some? ==> d.err == f.get)
            && (f.get.None? && !FileExists(f.dirStat) && f.mkdir.Some? ==> d.err == f.mkdir)
            && (f.get.None? && (FileExists(f.dirStat) || f.mkdir.None?) && f.create.Some? ==> d.err == f.create)
            && (f.get.None? && (FileExists(f.dirStat) || f.mkdir.None?) && f.create.None? ==> d.err == f.copy)
  {
  }
}

=== FILE: filerequest.dfy ===
/** The file ids sent to the batch-files endpoint (`main` in main.go): the `fileID` of every
    manifest file entry marked required, in manifest order. */
module FileRequest {

  import opened Manifest
  import opened Selection

  predicate IsRequired(f: File) {
    f.required
  }

  /** The loop of main.go, which appends the id of each required entry as it goes. */
  function RequiredFileIds(files: seq<File>): (ids: seq<int>)
    // one id per required entry, in manifest order: the k-th id belongs to the k-th
    // required entry
    ensures var P := Positions(files, IsRequired);
            && |ids| == |P|
            && forall k :: 0 <= k < |ids| ==> ids[k] == files[P[k]].fileId
  {
    if |files| == 0 then []
    else
      var prev := RequiredFileIds(files[..|files| - 1]);
      var last := files[|files| - 1];
      if last.required then prev + [last.fileId] else prev
  }

  /** Requesting a manifest in two halves gives the two halves' ids back to back, so the
      order of the entries is kept. */
  lemma {:induction false} RequiredFileIdsAppend(a: seq<File>, b: seq<File>)
    ensures RequiredFileIds(a + b) == RequiredFileIds(a) + RequiredFileIds(b)
    decreases |b|
  {
    if |b| == 0 {
      assert a + b == a;
    } else {
      var b' := b[..|b| - 1];
      assert (a + b)[..|a + b| - 1] == a + b';
      RequiredFileIdsAppend(a, b');
    }
  }

  /** An id is requested exactly when some required entry carries it; entries not marked
      required never contribute. */
  lemma RequestedIdsAreRequired(files: seq<File>, id: int)
    ensures id in RequiredFileIds(files) <==> exists i :: 0 <= i < |files| && files[i].required && files[i].fileId == id
  {
    var ids := RequiredFileIds(files);
    var P := Positions(files, IsRequired);
    if id in ids {
      var k :| 0 <= k < |ids| && ids[k] == id;
      assert files[P[k]].required;
    }
    if i :| 0 <= i < |files| && files[i].required && files[i].fileId == id {
      assert IsRequired(files[i]);
      var k :| 0 <= k < |P| && P[k] == i;
      assert ids[k] == id;
    }
  }

  /** When every entry is required, every id is requested, in order. */
  lemma AllRequiredRequestsAll(files: seq<File>)
    requires forall i :: 0 <= i < |files| ==> files[i].required
    ensures |RequiredFileIds(files)| == |files|
    ensures forall i :: 0 <= i < |files| ==> RequiredFileIds(files)[i] == files[i].fileId
  {
    var P := Positions(files, IsRequired);
    var all := seq(|files|, i => i);
    assert Enumerates(all, files, IsRequired) by {
      forall i | 0 <= i < |files| ensures i in all {
        assert all[i] == i;
      }
    }
    EnumerationIsUnique(P, all, files, IsRequired);
  }
}

=== FILE: loader.dfy ===
/** Choosing the mod-loader version to install (the `--forge` branch of `main` in main.go):
    a scan over the manifest's mod-loader entries that never stops early, so the last entry
    marked primary wins and no primary entry leaves the version empty. */
module Loader {

  import opened Manifest

  /** The position of the last primary entry, or -1 when no entry is primary. */
  function LastPrimary(loaders: seq<ModLoader>): (k: int)
    ensures -1 <= k < |loaders|
    ensures k >= 0 ==> loaders[k].primary
    ensures forall j :: k < j < |loaders| ==> !loaders[j].primary
  {
    if |loaders| == 0 then -1
    else if loaders[|loaders| - 1].primary then |loaders| - 1
    else LastPrimary(loaders[..|loaders| - 1])
  }

  /** The version the scan settles on: the id of the last primary entry, or "". */
  function PrimaryVersion(loaders: seq<ModLoader>): (v: string)
    // no primary entry leaves the version empty
    ensures (forall i :: 0 <= i < |loaders| ==> !loaders[i].primary) ==> v == ""
    // otherwise it is the id of a primary entry that no later entry overrides
    ensures (exists i :: 0 <= i < |loaders| && loaders[i].primary) ==>
              exists k :: 0 <= k < |loaders| && loaders[k].primary && v == loaders[k].id &&
                (forall j :: k < j < |loaders| ==> !loaders[j].primary)
  {
    var k := LastPrimary(loaders);
    if k < 0 then "" else loaders[k].id
  }

  /** The scan of main.go: every primary entry overwrites the version found so far. */
  method SelectPrimaryVersion(loaders: seq<ModLoader>) returns (versionForge: string)
    ensures versionForge == PrimaryVersion(loaders)
    ensures (forall i :: 0 <= i < |loaders| ==> !loaders[i].primary) ==> versionForge == ""
    ensures versionForge != "" ==> exists i :: 0 <= i < |loaders| && loaders[i].primary && loaders[i].id == versionForge
  {
    versionForge := "";
    for i := 0 to |loaders|
      invariant versionForge == PrimaryVersion(loaders[..i])
    {
      if loaders[i].primary {
        versionForge := loaders[i].id;
      }
      assert loaders[..i + 1][..i] == loaders[..i];
    }
    assert loaders[..|loaders|] == loaders;
  }

  /** Appending an entry that is not primary never changes the chosen version. */
  lemma AppendNonPrimaryKeepsVersion(loaders: seq<ModLoader>, extra: ModLoader)
    requires !extra.primary
    ensures PrimaryVersion(loaders + [extra]) == PrimaryVersion(loaders)
  {
    assert (loaders + [extra])[..|loaders|] == loaders;
  }

  /** Appending a primary entry makes it the chosen one, whatever came before. */
  lemma AppendPrimaryWins(loaders: seq<ModLoader>, extra: ModLoader)
    requires extra.primary
    ensures PrimaryVersion(loaders + [extra]) == extra.id
  {
  }

  /** With two primary entries the earlier one never decides the version. */
  lemma LaterPrimaryWins(loaders: seq<ModLoader>, i: int, j: int)
    requires 0 <= i < j < |loaders| && loaders[i].primary && loaders[j].primary
    ensures LastPrimary(loaders) != i
  {
  }
}

=== FILE: manifest.dfy ===
/** The parts of the modpack manifest (manifest/manifest.go) that the download workflow reads.
    The manifest is decoded from JSON once and is read-only afterwards. */
module Manifest {

  /** One mod-loader entry, e.g. a Forge version, with the flag marking the one to install. */
  datatype ModLoader = ModLoader(id: string, primary: bool)

  /** One mod file of the pack; only `required` entries are requested from the API. */
  datatype File = File(projectId: int, fileId: int, required: bool)

  datatype Minecraft = Minecraft(version: string, modLoaders: seq<ModLoader>)

  datatype Manifest = Manifest(
    minecraft: Minecraft,
    manifestType: string,
    manifestVersion: int,
    name: string,
    version: string,
    author: string,
    files: seq<File>,
    overrides: string)
}

=== FILE: response.dfy ===
/** The fields of the mod API's file metadata (response/responseFiles.go) that the downloader uses. */
module Response {

  /** Resolved metadata of one requested file: where to fetch it and what to call it on disk. */
  datatype FileData = FileData(fileName: string, downloadUrl: string)
}

=== FILE: selection.dfy ===
/** In-order selection from a sequence: the shared specification of "keep the entries that
    satisfy a test, in their original order", used for the requested file ids and for the
    list of failed downloads. */
module Selection {

  /** `idx` lists, in strictly increasing order, exactly the positions of `s` whose entry
      satisfies `keep`. */
  ghost predicate Enumerates<T>(idx: seq<int>, s: seq<T>, keep: T -> bool) {
    && (forall k :: 0 <= k < |idx| ==> 0 <= idx[k] < |s| && keep(s[idx[k]]))
    && (forall k, l :: 0 <= k < l < |idx| ==> idx[k] < idx[l])
    && (forall i :: 0 <= i < |s| && keep(s[i]) ==> i in idx)
  }

  /** The positions of `s` whose entries satisfy `keep`, in increasing order. */
  ghost function Positions<T>(s: seq<T>, keep: T -> bool): (idx: seq<int>)
    ensures Enumerates(idx, s, keep)
    ensures |idx| <= |s|
  {
    if |s| == 0 then []
    else
      var prev := Positions(s[..|s| - 1], keep);
      if keep(s[|s| - 1]) then prev + [|s| - 1] else prev
  }

  /** The last listed position is the largest selected one. */
  lemma LastIsLargest<T>(a: seq<int>, s: seq<T>, keep: T -> bool, i: int)
    requires Enumerates(a, s, keep) && |a| > 0
    requires 0 <= i < |s| && keep(s[i])
    ensures i <= a[|a| - 1]
  {
    var j :| 0 <= j < |a| && a[j] == i;
    if j < |a| - 1 {
      assert a[j] < a[|a| - 1];
    }
  }

  /** Dropping the last listed position enumerates the selection below it. */
  lemma DropLast<T>(a: seq<int>, s: seq<T>, keep: T -> bool)
    requires Enumerates(a, s, keep) && |a| > 0
    ensures Enumerates(a[..|a| - 1], s[..a[|a| - 1]], keep)
  {
    var last := a[|a| - 1];
    var a', s' := a[..|a| - 1], s[..last];
    forall k | 0 <= k < |a'| ensures 0 <= a'[k] < |s'| && keep(s'[a'[k]]) {
      assert a[k] < last;
    }
    forall i | 0 <= i < |s'| && keep(s'[i]) ensures i in a' {
      assert s'[i] == s[i];
      var j :| 0 <= j < |a| && a[j] == i;
      assert j != |a| - 1;
      assert a'[j] == i;
    }
  }

  /** A selected position listed by one enumeration is listed by the other. */
  lemma BothOrNeither<T>(a: seq<int>, b: seq<int>, s: seq<T>, keep: T -> bool)
    requires Enumerates(a, s, keep) && Enumerates(b, s, keep)
    ensures |a| == 0 <==> |b| == 0
  {
    if |b| > 0 { assert b[0] in a; }
    if |a| > 0 { assert a[0] in b; }
  }

  /** Only one sequence enumerates the selected positions, so `Enumerates` pins the
      selection down completely. */
  lemma {:induction false} EnumerationIsUnique<T>(a: seq<int>, b: seq<int>, s: seq<T>, keep: T -> bool)
    requires Enumerates(a, s, keep) && Enumerates(b, s, keep)
    ensures a == b
    decreases |a|
  {
    BothOrNeither(a, b, s, keep);
    if |a| > 0 {
      var la, lb := a[|a| - 1], b[|b| - 1];
      LastIsLargest(a, s, keep, lb);
      LastIsLargest(b, s, keep, la);
      DropLast(a, s, keep);
      DropLast(b, s, keep);
      EnumerationIsUnique(a[..|a| - 1], b[..|b| - 1], s[..la], keep);
      assert a == a[..|a| - 1] + [la];
      assert b == b[..|b| - 1] + [lb];
    }
  }
}

=== FILE: summary.dfy ===
/** Tallying the per-file downloads and the final report (`main` in main.go): each resolved
    file is downloaded in response order, counted as a success or a failure, and the names of
    the failures are collected for the closing report. */
module Summary {

  import opened Wrappers
  import opened Selection
  import opened Response
  import Download
  import Consent

  /** One pass of the download loop: the file and what `downloadFile` returned for it. */
  datatype Attempt = Attempt(file: FileData, res: bool, err: Option<Download.Error>)

  /** The loop's accumulators `success`, `failed` and `listFailed`. */
  datatype Tally = Tally(success: nat, failed: nat, listFailed: seq<string>)

  predicate Succeeded(a: Attempt) {
    a.res
  }

  /** A failure is any attempt whose `res` is false, with or without an error: a declined
      overwrite counts as a failure too. */
  predicate Failed(a: Attempt) {
    !a.res
  }

  /** The attempt a call to `downloadFile` for `file` amounts to. */
  function AttemptOf(file: FileData, d: Download.Download): (a: Attempt)
    ensures Failed(a) <==> !d.res
  {
    Attempt(file, d.res, d.err)
  }

  /** One download, fed to the tally: it is counted as a success exactly when the gate lets the
      fetch through and every step succeeds; otherwise it is counted as a failure and its name
      is listed, whatever the reason. */
  lemma DownloadIsTallied(t: Tally, file: FileData, fileStat: Download.StatResult, overrode: bool,
                          answer: string, f: Download.FetchSteps)
    ensures var r := Record(t, AttemptOf(file, Download.DownloadFile(fileStat, overrode, answer, f)));
            var proceeds := !(Download.FileExists(fileStat) && !overrode && !Consent.Accepts(answer));
            if proceeds && Download.StepsSucceed(f) then r == Tally(t.success + 1, t.failed, t.listFailed)
            else r == Tally(t.success, t.failed + 1, t.listFailed + [file.fileName])
  {
  }

  /** A declined overwrite of an existing file returns no error, yet is counted and listed as
      a failure. */
  lemma DeclinedIsTallied(t: Tally, file: FileData, fileStat: Download.StatResult, answer: string,
                          f: Download.FetchSteps)
    ensures Download.FileExists(fileStat) && !Consent.Accepts(answer) ==>
              && Download.DownloadFile(fileStat, false, answer, f).err.None?
              && Record(t, AttemptOf(file, Download.DownloadFile(fileStat, false, answer, f)))
                 == Tally(t.success, t.failed + 1, t.listFailed + [file.fileName])
  {
  }

  /** The accumulators after one more attempt. */
  function Record(t: Tally, a: Attempt): (r: Tally)
    // exactly one counter moves, and it is the one matching the outcome
    ensures r.success + r.failed == t.success + t.failed + 1
    ensures r.success == t.success + 1 <==> Succeeded(a)
    // the failure list only grows at its end, by the name of a failed attempt
    ensures |t.listFailed| <= |r.listFailed| && r.listFailed[..|t.listFailed|] == t.listFailed
    ensures |r.listFailed| == |t.listFailed| + 1 <==> Failed(a)
    ensures Failed(a) ==> r.listFailed[|t.listFailed|] == a.file.fileName
    // the counter and the list that do not match the outcome stay put
    ensures Succeeded(a) ==> r.failed == t.failed && r.listFailed == t.listFailed
    ensures Failed(a) ==> r.success == t.success
  {
    if a.res then Tally(t.success + 1, t.failed, t.listFailed)
    else Tally(t.success, t.failed + 1, t.listFailed + [a.file.fileName])
  }

  /** The accumulators after the whole loop, as a fold of `Record`. */
  function TallyOf(attempts: seq<Attempt>): (t: Tally)
    // every attempt is counted exactly once, and every failure is listed
    ensures t.success + t.failed == |attempts|
    ensures |t.listFailed| == t.failed
  {
    if |attempts| == 0 then Tally(0, 0, [])
    else Record(TallyOf(attempts[..|attempts| - 1]), attempts[|attempts| - 1])
  }

  /** What the tally means: `success` counts the successful attempts, `failed` the failed ones,
      and `listFailed` names the failed attempts, one per failure, in download order. An
      attempt that succeeded is never listed. */
  lemma {:induction false} TallyCountsOutcomes(attempts: seq<Attempt>)
    ensures var t, P := TallyOf(attempts), Positions(attempts, Failed);
            && t.success == |Positions(attempts, Succeeded)|
            && t.failed == |P|
            && forall k :: 0 <= k < |P| ==> t.listFailed[k] == attempts[P[k]].file.fileName
  {
    if |attempts| > 0 {
      var n := |attempts|;
      var prefix, last := attempts[..n - 1], attempts[n - 1];
      TallyCountsOutcomes(prefix);
      var t', t := TallyOf(prefix), TallyOf(attempts);
      assert t == Record(t', last);
      var P', P := Positions(prefix, Failed), Positions(attempts, Failed);
      var S', S := Positions(prefix, Succeeded), Positions(attempts, Succeeded);
      if last.res {
        assert S == S' + [n - 1] && P == P';
        assert t.listFailed == t'.listFailed;
      } else {
        assert P == P' + [n - 1] && S == S';
        assert t.listFailed == t'.listFailed + [last.file.fileName];
      }
      NamesStep(attempts, P', P, t'.listFailed, t.listFailed);
    }
  }

  /** One step of `TallyCountsOutcomes` for the failure list: names matching the failure
      positions of all but the last attempt still match after the last attempt is recorded. */
  lemma NamesStep(attempts: seq<Attempt>, P': seq<int>, P: seq<int>, L': seq<string>, L: seq<string>)
    requires |attempts| > 0
    requires forall k :: 0 <= k < |P'| ==> 0 <= P'[k] < |attempts| - 1
    requires |L'| == |P'|
    requires forall k :: 0 <= k < |P'| ==> L'[k] == attempts[P'[k]].file.fileName
    requires || (P == P' && L == L')
             || (P == P' + [|attempts| - 1] && L == L' + [attempts[|attempts| - 1].file.fileName])
    ensures |L| == |P|
    ensures forall k :: 0 <= k < |P| ==> 0 <= P[k] < |attempts| && L[k] == attempts[P[k]].file.fileName
  {
  }

  /** The loop of main.go. */
  method TallyDownloads(attempts: seq<Attempt>) returns (success: nat, failed: nat, listFailed: seq<string>)
    ensures success + failed == |attempts| && |listFailed| == failed
    ensures var t := TallyOf(attempts);
            success == t.success && failed == t.failed && listFailed == t.listFailed
  {
    success, failed, listFailed := 0, 0, [];
    for i := 0 to |attempts|
      invariant success + failed == i && |listFailed| == failed
      invariant var t := TallyOf(attempts[..i]);
                success == t.success && failed == t.failed && listFailed == t.listFailed
    {
      assert attempts[..i + 1][..i] == attempts[..i];
      if attempts[i].res {
        success := success + 1;
      } else {
        failed := failed + 1;
        listFailed := listFailed + [attempts[i].file.fileName];
      }
    }
    assert attempts[..|attempts|] == attempts;
  }

  /** Tallying two stretches of downloads one after the other adds their counts and joins
      their failure lists. */
  lemma {:induction false} TallyAppend(a: seq<Attempt>, b: seq<Attempt>)
    ensures var ta, tb, t := TallyOf(a), TallyOf(b), TallyOf(a + b);
            && t.success == ta.success + tb.success
            && t.failed == ta.failed + tb.failed
            && t.listFailed == ta.listFailed + tb.listFailed
    decreases |b|
  {
    if |b| == 0 {
      assert a + b == a;
    } else {
      var b', last := b[..|b| - 1], b[|b| - 1];
      assert (a + b)[..|a + b| - 1] == a + b';
      assert (a + b)[|a + b| - 1] == last;
      assert TallyOf(a + b) == Record(TallyOf(a + b'), last);
      assert TallyOf(b) == Record(TallyOf(b'), last);
      TallyAppend(a, b');
    }
  }

  /** The tally looks only at `res`: the error a failure came with never changes it, so a
      declined overwrite `(false, nil)` and a failed request count alike. */
  lemma {:induction false} TallyIgnoresErrors(a: seq<Attempt>, b: seq<Attempt>)
    requires |a| == |b|
    requires forall i :: 0 <= i < |a| ==> a[i].file == b[i].file && a[i].res == b[i].res
    ensures TallyOf(a) == TallyOf(b)
    decreases |a|
  {
    if |a| > 0 {
      TallyIgnoresErrors(a[..|a| - 1], b[..|b| - 1]);
    }
  }

  /** A line of the closing report. */
  datatype Line =
    | DownloadedCount(n: nat)       // the number of files downloaded
    | FailedCount(n: nat)           // the number of failed downloads
    | FailureListHeading            // the heading above the failed file names
    | FailedFileName(name: string)  // one failed file per line

  /** The closing report: both counts first, successes then failures, and the failure list
      only when something failed. */
  function Report(t: Tally): (lines: seq<Line>)
    ensures |lines| >= 2 && lines[0] == DownloadedCount(t.success) && lines[1] == FailedCount(t.failed)
    ensures |lines| > 2 <==> t.failed > 0
    ensures t.failed > 0 ==>
      && |lines| == 3 + |t.listFailed|
      && lines[2] == FailureListHeading
      && forall k :: 0 <= k < |t.listFailed| ==> lines[3 + k] == FailedFileName(t.listFailed[k])
  {
    var counts := [DownloadedCount(t.success), FailedCount(t.failed)];
    if t.failed > 0 then counts + [FailureListHeading] + NameLines(t.listFailed) else counts
  }

  function NameLines(names: seq<string>): (lines: seq<Line>)
    ensures |lines| == |names|
    ensures forall k :: 0 <= k < |names| ==> lines[k] == FailedFileName(names[k])
  {
    if |names| == 0 then [] else [FailedFileName(names[0])] + NameLines(names[1..])
  }

  /** The report of a whole run lists a file name exactly for the attempts that failed, in
      download order, and shows the list exactly when some attempt failed. */
  lemma {:induction false} ReportOfRun(attempts: seq<Attempt>)
    ensures var lines := Report(TallyOf(attempts));
            var P := Positions(attempts, Failed);
            && (|lines| > 2 <==> exists i :: 0 <= i < |attempts| && !attempts[i].res)
            && (|lines| > 2 ==> |lines| == 3 + |P|)
            && (|lines| > 2 ==>
                  forall k :: 0 <= k < |P| ==> lines[3 + k] == FailedFileName(attempts[P[k]].file.fileName))
  {
    TallyCountsOutcomes(attempts);
    var P := Positions(attempts, Failed);
    if i :| 0 <= i < |attempts| && !attempts[i].res {
      assert Failed(attempts[i]);
      assert i in P;
    }
  }

  /** Two files that both download: two successes, no failures, and no failure list. */
  lemma AllSucceedScenario(f1: FileData, f2: FileData)
    ensures Report(TallyOf([Attempt(f1, true, None), Attempt(f2, true, None)]))
         == [DownloadedCount(2), FailedCount(0)]
  {
    var a := [Attempt(f1, true, None), Attempt(f2, true, None)];
    assert a[..1][..0] == [];
    assert a[..1] == [Attempt(f1, true, None)];
  }

  /** One of two downloads fails on the network: one success, one failure, and the failed
      file's name in the list. */
  lemma OneFailsScenario(f1: FileData, f2: FileData, e: Download.Error)
    ensures Report(TallyOf([Attempt(f1, true, None), Attempt(f2, false, Some(e))]))
         == [DownloadedCount(1), FailedCount(1), FailureListHeading, FailedFileName(f2.fileName)]
  {
    var a := [Attempt(f1, true, None), Attempt(f2, false, Some(e))];
    assert a[..1][..0] == [];
    assert a[..1] == [Attempt(f1, true, None)];
  }
}

=== FILE: wrappers.dfy ===
/** Optional values: the model's stand-in for Go's `error` results, where `nil` is `None`. */
module Wrappers {

  datatype Option<+T> = None | Some(value: T)
}
